=== FILE: README.md ===
# funcache memoization core, modelled in Dafny

This project models the memoization engine of `funcache`: the two decorator
classes `PickleCache` and `DiskCache`, and the argument normalizer they share.

- **Normalizer** (`normalize.dfy`, module `Normalize`). `normalize_args` merges
  a call's positional and keyword arguments into one name-to-value map, using
  the function's declared parameters. `Fill` is the source loop, step by step.
  `MergedBelow` describes the loop's state declaratively, and
  `FillKeepsDescription` proves that description is the loop's invariant.
  Python's `dict(kwargs)` copy needs no model, because Dafny maps are values:
  the caller's keyword map cannot be changed.
- **Gate** (`gate.dfy`, module `Gate`). Both decorators decide once per call
  whether to use their store. The flag parameter defaults to `True` and the key
  parameter defaults to `""`. Only a falsy flag or a `None` key turns caching off.
- **PickleCache** (`pickle_cache.dfy`). Each key gets one file,
  `<cache_dir>/<md5(str(key))>.pkl`. The file system is an abstract map from
  path to content, and each call is a pure step
  `(files, args, kwargs) -> (files', outcome, function ran?)`.
- **DiskCache** (`disk_cache.dfy`). The store is memoised: it is opened once,
  when the function is decorated. Its directory is the one given, or else
  `.disk_cache/<md5(filename)>-<name>`. The stores on disk are a map from
  directory to entries. Each entry records the `expire` argument it was set with.
- **Values** (`values.dfy`) and **Paths** (`paths.dfy`) hold the shared pieces:
  - a closed set of Python values with their truthiness and `str()`;
  - `inspect.Parameter.empty`, the default of a parameter declared without one;
  - POSIX `os.path.join`.

MD5 is a parameter of type `Digest`: any function from text to 32 lower-case
hex characters. The wrapped function is a `Function` whose `body` is
uninterpreted. Its exceptions are modelled as `Raise` outcomes.

Behaviours of the code that a reader of the decorators' docstrings might not expect, each stated by a member:

- A parameter at declaration index `i` that was not passed by keyword takes
  `args[i]`. It does not take "the next unconsumed positional"
  (`Normalize.PositionalsBindByIndex`).
- A key parameter missing from the merged arguments becomes `""`, and caching
  stays on. It does not disable caching (`Gate.MissingKeyCachesUnderEmptyString`).
- `_load_cache` catches only `FileNotFoundError` and `pickle.PickleError`.
  A `FileNotFoundError` raised by code the unpickling runs is caught too and
  reads as a miss (`PickleCache.CaughtLoadErrorRecomputes`). Any other
  exception of `pickle.load` is not caught: `EOFError` on an empty
  file, `ValueError` on an unsupported protocol, `AttributeError` or
  `ModuleNotFoundError` on a class that no longer exists. It reaches the
  caller instead of reading as a miss (`PickleCache.Load`, `PickleCache.Call`).
- `_save_cache` first calls `ensure_gitignore(cache_dir)`. With `cache_dir=""`
  that runs `os.makedirs("")`, which raises `FileNotFoundError` after the
  function has run: the caller gets the exception instead of the result, and
  nothing is stored (`PickleCache.EmptyDirNeverStores`).
- The pickle cache identifies an entry by the key's `str()` only. The integer
  `1` and the string `"1"` therefore share a file
  (`Values.IntAndStringShareStr`). Two functions that share a directory also
  share entries (`PickleCache.StoredResultIsReturned`).
- A second use of one `DiskCache` object, even for another function, reuses the
  first function's store (`DiskCache.SecondDecorationSharesStore`).

## Model

| member | source | states |
|---|---|---|
| `Values.NatToDecimal` | src/funcache/core.py:44 | `str()` of a natural number: at least one character, all decimal digits, no leading zero, one digit exactly below ten, and the digits read back in base ten give the number |
| `Values.NatToDecimalInjective` | src/funcache/core.py:44 | distinct natural numbers have distinct decimal forms |
| `Values.StrInjectiveOnInts` | src/funcache/core.py:44 | distinct integer keys have distinct `str()` forms, so they hash different texts |
| `Values.IntAndStringShareStr` | src/funcache/core.py:44 | the integer 1 and the string "1" are different keys with the same `str()` form, so the pickle cache gives them the same file |
| `Paths.JoinDigestName` | src/funcache/disk.py:45 | `os.path.join` of a directory not ending in `/` and a name starting with a hex digit inserts exactly one `/` |
| `Normalize.IndexOf` | src/funcache/_utils.py:18-19 | the index returned is the first parameter with that name, or the parameter count if no parameter has it |
| `Normalize.MergedStep` | src/funcache/_utils.py:19-20 | one loop turn moves the declarative description of the merged map from index `i` to `i + 1`: a name already present is skipped, and a new name is bound by its index |
| `Normalize.FillKeepsDescription` | src/funcache/_utils.py:16-21 | the loop, started from the keyword copy, ends in the declarative description over all parameters |
| `Normalize.NormalizeArgs` | src/funcache/_utils.py:8-21 | result keys are exactly the keyword names plus the declared names; every declared name is present; every keyword keeps its value (it overrides positionals and defaults); a parameter not passed by keyword gets `args[i]` for its index `i` if `i < len(args)`, else its default |
| `Normalize.CompleteKeywordsAreFixpoint` | src/funcache/_utils.py:16-21 | a keyword map that already names every parameter comes back unchanged, whatever the positionals |
| `Normalize.NormalizeIdempotent` | src/funcache/_utils.py:16-21 | feeding the merged map back as keywords with no positionals returns the same map |
| `Normalize.OnlyUnshadowedPositionalsMatter` | src/funcache/_utils.py:18-20 | two positional lists that agree at the indices of parameters not passed by keyword give the same merged map |
| `Normalize.ExtraPositionalsDropped` | src/funcache/_utils.py:18-20 | positionals at indices at or beyond the parameter count are dropped |
| `Normalize.ShadowedPositionalDropped` | src/funcache/_utils.py:19-20 | a positional at the index of a parameter passed by keyword is dropped |
| `Normalize.PositionalsBindByIndex` | src/funcache/_utils.py:20 | `f(1, a=9)` for `def f(a, b)` binds `b` to the empty default, not to the unconsumed 1 |
| `Gate.Decide` | src/funcache/core.py:65-67 | the call bypasses the store iff the flag is present and falsy, or the key is present and `None`; a lookup key is never `None`; a missing key means `""` |
| `Gate.MissingKeyCachesUnderEmptyString` | src/funcache/core.py:65-67 | with neither flag nor key among the arguments, caching is on under the key `""` |
| `Gate.NoneKeyBypasses` | src/funcache/disk.py:62-63 | a `None` key disables caching whatever the flag is |
| `Gate.FlagFromSignature` | src/funcache/core.py:63-65 | a flag parameter left out by the caller keeps its declared default, and a falsy default or a falsy positional at the flag's index disables caching |
| `PickleCache.CacheFile` | src/funcache/core.py:43-45 | the cache file is `<cache_dir>/<md5(str(key))>.pkl`, with no separator added when the directory is empty or already ends in `/` |
| `PickleCache.SameStrSameFile` | src/funcache/core.py:43-45 | keys with equal `str()` forms map to the same file |
| `PickleCache.Load` | src/funcache/core.py:47-53 | a missing file, or one whose unpickling raises `PickleError` or `FileNotFoundError`, reads as `None`; a pickled value reads back as itself; a file on which `pickle.load` raises any other exception raises exactly that exception, which is never `FileNotFoundError` |
| `PickleCache.SaveThenLoad` | src/funcache/core.py:48-58 | loading a file right after saving `v` to it returns `v` |
| `PickleCache.Call` | src/funcache/core.py:55-87 | a bypassed call runs `func(**merged)` and leaves the files alone; a hit returns the stored value without running `func` or writing; a file whose unpickling raises an uncaught exception raises it without running `func`; a miss runs `func`, and an exception from it is returned and never written; a returned value is written to the key's file and returned, except that with an empty `cache_dir` the call raises `FileNotFoundError` and writes nothing |
| `PickleCache.OnlyTheKeysFileChanges` | src/funcache/core.py:69-85 | a call leaves the files as they were, or changes only its key's file, which then holds the value the call returned |
| `PickleCache.StoredResultIsReturned` | src/funcache/core.py:70-81 | in a non-empty cache directory, an enabled miss whose function returns a non-`None` `v` writes `v` to the key's file and returns it; the next enabled call whose key has the same `str()`, even of another function, then returns `v` without running its function |
| `PickleCache.CaughtLoadErrorRecomputes` | src/funcache/core.py:49-53 | a file whose unpickling raises an exception `_load_cache` catches reads as a miss: `func` runs and its returned value overwrites the file |
| `PickleCache.EmptyDirNeverStores` | src/funcache/core.py:55-56 | with `cache_dir=""` an enabled miss whose function returns runs it, then `ensure_gitignore("")` raises `FileNotFoundError`, and leaves the files unchanged |
| `PickleCache.DefaultFileLocation` | src/funcache/core.py:26-45 | `pkl_cache(cache_key)` with its defaults keeps the file for a key at `.cache/<md5(str(key))>.pkl` and uses the flag `cache` |
| `PickleCache.NoneResultIsRecomputed` | src/funcache/core.py:72-81 | a `None` result reads back as a miss, so the next call with that key runs the function again |
| `PickleCache.BypassedRunsAlwaysCompute` | src/funcache/core.py:69-85 | a run of calls with caching switched off leaves the files unchanged and runs the function once per call |
| `PickleCache.SharedKeyComputesAtMostOnce` | src/funcache/core.py:69-85 | calls sharing one cache file in a non-empty directory, with a function that never raises or returns `None`, run it at most once from any starting file, and never when the file already holds a value or makes `pickle.load` raise an exception `_load_cache` does not catch |
| `DiskCache.InitCache` | src/funcache/disk.py:39-53 | an open store is returned unchanged; otherwise a given `cache_dir` is kept, a missing one becomes `.disk_cache/<md5(filename)>-<name>`, and the store opened on it is memoised |
| `DiskCache.DerivedDir` | src/funcache/disk.py:43-45 | the derived directory is `.disk_cache/` followed by the digest of the function's file name, `-` and the function's name |
| `DiskCache.InitCacheIdempotent` | src/funcache/disk.py:40-41 | a second initialisation, even for another function, returns the same store and changes no setting |
| `DiskCache.Decorate` | src/funcache/disk.py:55-58 | decorating is exactly `_init_cache(func)`: the decorator object and store it yields are those of `InitCache`; the wrapper wraps `func` itself, keeps that store and the decorator's settings |
| `DiskCache.SecondDecorationSharesStore` | src/funcache/disk.py:26-47 | a second function decorated with the same new `DiskCache` object gets the first function's store: the given `cache_dir`, or else the directory derived from the first function |
| `DiskCache.DefaultDecorator` | src/funcache/disk.py:26-58 | `DiskCache(cache_key)` with its defaults gives a wrapper with `expire` one day and flag `cache`, storing under `.disk_cache/<md5(filename)>-<name>`, and leaves the object's `cache_dir` naming that store |
| `DiskCache.Call` | src/funcache/disk.py:59-80 | a bypassed call runs `func(**merged)` and leaves the stores alone; a hit returns the stored value without running `func`; a miss runs `func`, returns its outcome, and on a return sets the key with the decorator's `expire`; an exception sets nothing; no other store is touched |
| `DiskCache.StoredResultIsReturned` | src/funcache/disk.py:68-80 | an enabled miss whose function returns a non-`None` `v` sets `v` under the key with the decorator's `expire` and returns it; the next enabled call under the same key then returns `v` without running the function |
| `DiskCache.NoneResultIsRecomputed` | src/funcache/disk.py:68-80 | a `None` result reads back as a miss, so the next call with that key runs the function again |

## Left out

- `src/funcache/box.py`: its decorators are one-line wrappers over the `cachebox` library, whose eviction and expiry code is not part of this model.
- `src/funcache/__init__.py`: it only re-exports names.
- `ensure_gitignore` is modelled only through its failure on an empty directory name. Its other failures, such as a permission error or a file at the directory's path, are not modelled, and neither is the `.gitignore` marker it writes.
- `DiskCache.InitCache`: with `cache_dir=""`, decoration raises `FileNotFoundError` (disk.py:47-48). The model opens a store instead and does not model that exception.
- `_log`, `printf` and the logger calls are not modelled. They can raise after a store has been written, or at decoration time, as the next lines describe.
- `Values.Function` stands for a plain Python function with `__name__` and `__code__`. Each log message reads `func.__name__` (core.py:74,83; disk.py:51,71,78), and `_init_cache` reads `func.__code__` (disk.py:44). With a `functools.partial` or a callable object, the source raises `AttributeError`: on every `PickleCache` hit, on every miss after the file is written, and when `DiskCache` decorates. The model does not.
- With `printf=True`, `print(msg)` (core.py:40) can raise, for example `UnicodeEncodeError` when stdout cannot encode the key, after the file is written. Failures of `print` are not modelled.
- `Values.Str`: CPython 3.11 and later raise `ValueError` on `str()` of an integer with more than 4300 digits. The model gives every integer a decimal form. In the code, `PickleCache` then raises in `_get_cache_file` before running the function (core.py:44). `DiskCache` runs the function, stores the result, and raises from the f-string of its log message (disk.py:76-79; on a hit, disk.py:70-72).
- `Values.PyStr` and `Function.filename` hold only Unicode scalar values, because a Dafny `char` is one. A Python `str` can also hold lone surrogates, for example a file name decoded with `surrogateescape`. On such text `.encode()` raises `UnicodeEncodeError`: for a `PickleCache` key on every enabled call, before the load and before the function runs (core.py:44), and for a `DiskCache` function's `co_filename` at decoration time (disk.py:44). The model's `Digest` is total, and these errors are not modelled.
- The wrapped function's own effects are not modelled. Its `body` is a pure map from arguments to an outcome. That includes re-entrant calls of cached wrappers: a recursive cached function writes the files of other keys. The frame lemmas (`PickleCache.OnlyTheKeysFileChanges`, the frame clause of `DiskCache.Call`) hold because the modelled function cannot touch the files.
- File paths and store directories are compared as strings. Different spellings of one directory (`c` and `./c`, an absolute path, a symlink, a relative path after `os.chdir`) share files in the source but not in the model. There is no path normalisation, working directory or link resolution. So "two functions that share a directory" above means two identical `cache_dir` strings.
- Cache files are written in place, not through a temporary file and a rename. A partly written file from an interrupted or concurrent write is modelled only as one of the `Content` cases.
- MD5 and pickle: MD5 is an opaque `Digest` parameter. A pickled value is modelled as reading back equal to itself.
- Failures of `pickle.dump` on an unpicklable result are not modelled: every save into a non-empty directory succeeds.
- `open` failures other than a missing file, such as a permission error or a directory at the path, are not modelled.
- `DiskCache.Get`: models `diskcache.Cache.get` as a plain lookup. Entries never expire in the model; `expire` is only recorded with each entry, because the library's expiry code is not part of this model.
- Key equality inside `diskcache` is modelled as equality of the modelled values. The library's own key encoding is not part of this model.
- Python truthiness is modelled only for the value kinds of `Values.Value`. Objects with their own `__bool__` are not modelled.
- The order of the merged dict is not modelled. It has no effect on lookups by name.
- The wrapper reads `cache_key`, `is_cache` and `expire` from the decorator object on each call. The model captures them at decoration time, because nothing in the code changes them after construction.
- `functools.wraps` metadata, the `cached_property` re-export, and concurrency are not modelled. The code has no locking of its own.

=== FILE: disk_cache.dfy ===
/** `DiskCache` (src/funcache/disk.py): memoises a function's results in a
    `diskcache.Cache` opened once, at decoration time, on a directory that is
    either given or derived from the function. */
module DiskCache {
  import opened Values
  import opened Paths
  import opened Normalize
  import opened Gate

  /** One day, in seconds. */
  const DefaultExpire := 60 * 60 * 24
  const CacheRoot := ".disk_cache"

  /** A `diskcache.Cache` opened on a directory. */
  datatype Store = Store(dir: string)

  /** A decorator's settings and its memoised store (`_cache`). */
  datatype Config = Config(
    cacheKey: string,
    cacheDir: Option<string>,
    isCache: string,
    expire: int,
    cache: Option<Store>)

  /** `DiskCache(cache_key, cache_dir, is_cache, expire)`: no store yet. */
  function New(cacheKey: string, cacheDir: Option<string>, isCache: string, expire: int): Config {
    Config(cacheKey, cacheDir, isCache, expire, None)
  }

  /** Once a store is open, `cache_dir` names its directory. */
  predicate Valid(c: Config) {
    c.cache.Some? ==> c.cacheDir == Some(c.cache.value.dir)
  }

  /** `_init_cache(func)`: returns the open store if there is one; otherwise
      fills in `cache_dir` when it is unset and opens a store on it. */
  function InitCache(c: Config, md5: Digest, f: Function): (r: (Config, Store))
    ensures r.0.cache == Some(r.1)
    ensures Valid(c) ==> Valid(r.0)
    ensures c.cache.Some? ==> r == (c, c.cache.value)
    ensures c.cache.None? && c.cacheDir.Some? ==> r.1 == Store(c.cacheDir.value) && r.0.cacheDir == c.cacheDir
    ensures c.cache.None? && c.cacheDir.None? ==>
              r.1.dir == CacheRoot + "/" + md5(f.filename) + "-" + f.name && r.0.cacheDir == Some(r.1.dir)
    ensures r.0.cacheKey == c.cacheKey && r.0.isCache == c.isCache && r.0.expire == c.expire
  {
    if c.cache.Some? then (c, c.cache.value)
    else
      var dir := if c.cacheDir.None? then DerivedDir(md5, f) else c.cacheDir.value;
      (c.(cacheDir := Some(dir), cache := Some(Store(dir))), Store(dir))
  }

  /** `os.path.join(".disk_cache", f"{md5(filename)}-{name}")`. */
  function DerivedDir(md5: Digest, f: Function): (dir: string)
    ensures dir == CacheRoot + "/" + md5(f.filename) + "-" + f.name
  {
    JoinDigestName(CacheRoot, md5(f.filename), "-" + f.name);
    Join(CacheRoot, md5(f.filename) + "-" + f.name)
  }

  /** Initialisation is idempotent: a second `_init_cache`, even for another
      function, returns the same store and leaves the settings alone. */
  lemma InitCacheIdempotent(c: Config, md5: Digest, f: Function, g: Function)
    ensures var (c1, store) := InitCache(c, md5, f);
            InitCache(c1, md5, g) == (c1, store)
  {
  }

  /** The wrapper `__call__` returns: it closes over the settings, the store
      opened at decoration time and the function. */
  datatype Wrapper = Wrapper(cacheKey: string, isCache: string, expire: int, store: Store, f: Function)

  /** `DiskCache(...)(func)`: opens (or reuses) the store, then wraps. */
  function Decorate(c: Config, md5: Digest, f: Function): (r: (Config, Wrapper))
    ensures r.0.cache == Some(r.1.store)
    ensures c.cache.Some? ==> r.0 == c && r.1.store == c.cache.value
    ensures r.1.cacheKey == c.cacheKey && r.1.isCache == c.isCache && r.1.expire == c.expire
    ensures r.1.f == f
    ensures (r.0, r.1.store) == InitCache(c, md5, f)
  {
    var (c1, store) := InitCache(c, md5, f);
    (c1, Wrapper(c.cacheKey, c.isCache, c.expire, store, f))
  }

  /** Reusing one decorator object for a second function hands the second
      wrapper the first function's store, directory included. */
  lemma SecondDecorationSharesStore(cacheKey: string, cacheDir: Option<string>, isCache: string, expire: int,
                                    md5: Digest, f: Function, g: Function)
    ensures var (c1, w1) := Decorate(New(cacheKey, cacheDir, isCache, expire), md5, f);
            var (c2, w2) := Decorate(c1, md5, g);
            && w2.store == w1.store
            && (cacheDir.None? ==> w2.store.dir == CacheRoot + "/" + md5(f.filename) + "-" + f.name)
            && (cacheDir.Some? ==> w2.store.dir == cacheDir.value)
  {
  }

  /** `disk_cache(cache_key)` with every other argument left at its default:
      the wrapper keeps entries for a day under the flag `cache`, in the
      directory derived from the function, and the decorator object then
      names that directory as its `cache_dir`. */
  lemma DefaultDecorator(cacheKey: string, md5: Digest, f: Function)
    ensures var (c1, w) := Decorate(New(cacheKey, None, DefaultFlag, DefaultExpire), md5, f);
            && w.expire == 86400 && w.isCache == "cache" && w.cacheKey == cacheKey
            && w.store.dir == ".disk_cache/" + md5(f.filename) + "-" + f.name
            && Valid(c1)
  {
  }

  /** A cache entry: the value and the `expire` argument it was set with. */
  datatype Entry = Entry(value: Value, expire: int)

  /** Every store on disk, by directory. */
  type Disk = map<string, map<Value, Entry>>

  /** The entries of one store; a directory never opened is empty. */
  function Contents(disk: Disk, store: Store): map<Value, Entry> {
    if store.dir in disk then disk[store.dir] else map[]
  }

  /** `cache.get(key)`: the stored value, or `None` when there is none. */
  function Get(disk: Disk, store: Store, key: Value): Value {
    var entries := Contents(disk, store);
    if key in entries then entries[key].value else PyNone
  }

  /** The gate's decision for one call of the wrapper. */
  function GateOf(w: Wrapper, args: seq<Value>, kwargs: map<string, Value>): Decision {
    Decide(NormalizeArgs(w.f.params, args, kwargs), w.isCache, w.cacheKey)
  }

  /** One call of the wrapper. */
  function Call(w: Wrapper, disk: Disk, args: seq<Value>, kwargs: map<string, Value>): (s: Step<Disk>)
    ensures s.invoked ==> s.out == w.f.body(NormalizeArgs(w.f.params, args, kwargs))
    ensures !s.invoked || s.out.Raise? ==> s.state == disk
    ensures GateOf(w, args, kwargs).Bypass? ==> s.invoked && s.state == disk
    ensures var d := GateOf(w, args, kwargs);
            d.Lookup? && Get(disk, w.store, d.key) != PyNone ==>
              s == Step(disk, Return(Get(disk, w.store, d.key)), false)
    ensures var d := GateOf(w, args, kwargs);
            d.Lookup? && Get(disk, w.store, d.key) == PyNone ==>
              s.invoked &&
              (s.out.Return? ==> Contents(s.state, w.store) == Contents(disk, w.store)[d.key := Entry(s.out.value, w.expire)])
    ensures forall dir | dir != w.store.dir :: (dir in s.state <==> dir in disk) && (dir in disk ==> s.state[dir] == disk[dir])
  {
    var merged := NormalizeArgs(w.f.params, args, kwargs);
    match Decide(merged, w.isCache, w.cacheKey)
    case Bypass => Step(disk, w.f.body(merged), true)
    case Lookup(key) =>
      var cached := Get(disk, w.store, key);
      if cached != PyNone then Step(disk, Return(cached), false)
      else
        var result := w.f.body(merged);
        if result.Raise? then Step(disk, result, true)
        else Step(disk[w.store.dir := Contents(disk, w.store)[key := Entry(result.value, w.expire)]], result, true)
  }

  /** Round trip: an enabled miss whose function returns a non-`None` `v`
      sets `v` under the key with the decorator's `expire` and returns it;
      the next enabled call of the same wrapper under the same key then
      returns `v` without running the function. */
  lemma StoredResultIsReturned(w: Wrapper, disk: Disk, args: seq<Value>, kwargs: map<string, Value>,
                               args': seq<Value>, kwargs': map<string, Value>, k: Value, v: Value)
    requires GateOf(w, args, kwargs) == Lookup(k) && GateOf(w, args', kwargs') == Lookup(k)
    requires Get(disk, w.store, k) == PyNone
    requires w.f.body(NormalizeArgs(w.f.params, args, kwargs)) == Return(v) && v != PyNone
    ensures var s := Call(w, disk, args, kwargs);
            && s.out == Return(v) && s.invoked
            && Contents(s.state, w.store) == Contents(disk, w.store)[k := Entry(v, w.expire)]
            && Call(w, s.state, args', kwargs') == Step(s.state, Return(v), false)
  {
    var s := Call(w, disk, args, kwargs);
    assert Get(s.state, w.store, k) == v;
  }

  /** A `None` result is stored but reads back as a miss, so the function
      runs again on the next call with the same key. */
  lemma NoneResultIsRecomputed(w: Wrapper, disk: Disk, args: seq<Value>, kwargs: map<string, Value>)
    requires GateOf(w, args, kwargs).Lookup?
    requires Call(w, disk, args, kwargs).out == Return(PyNone)
    ensures Call(w, Call(w, disk, args, kwargs).state, args, kwargs).invoked
  {
    var s := Call(w, disk, args, kwargs);
    assert Get(s.state, w.store, GateOf(w, args, kwargs).key) == PyNone;
  }
}

=== FILE: gate.dfy ===
/** The per-call cache gate both decorators evaluate once, on the merged
    arguments, before touching their store (src/funcache/core.py and
    src/funcache/disk.py). */
module Gate {
  import opened Values
  import opened Normalize

  /** The flag parameter both decorators name by default. */
  const DefaultFlag := "cache"

  /** Skip the store for this call, or look it up under `key`. */
  datatype Decision = Bypass | Lookup(key: Value)

  /** `m.get(k, fallback)`. */
  function GetOr(m: map<string, Value>, k: string, fallback: Value): Value {
    if k in m then m[k] else fallback
  }

  /** `is_cache = merged.get(flag, True) and key is not None` with
      `key = merged.get(keyName, "")`. */
  function Decide(merged: map<string, Value>, flagName: string, keyName: string): (d: Decision)
    ensures d.Bypass? <==>
              (flagName in merged && !Truthy(merged[flagName])) || (keyName in merged && merged[keyName] == PyNone)
    ensures d.Lookup? ==> d.key != PyNone
    ensures d.Lookup? && keyName in merged ==> d.key == merged[keyName]
    ensures d.Lookup? && keyName !in merged ==> d.key == PyStr("")
  {
    var key := GetOr(merged, keyName, PyStr(""));
    if Truthy(GetOr(merged, flagName, PyBool(true))) && key != PyNone then Lookup(key) else Bypass
  }

  /** With neither the flag nor the key among the arguments, caching stays
      on under the empty-string key: a missing key does not disable it. */
  lemma MissingKeyCachesUnderEmptyString(merged: map<string, Value>, flagName: string, keyName: string)
    requires flagName !in merged && keyName !in merged
    ensures Decide(merged, flagName, keyName) == Lookup(PyStr(""))
  {
  }

  /** A `None` key disables caching whatever the flag says. */
  lemma NoneKeyBypasses(merged: map<string, Value>, flagName: string, keyName: string)
    requires keyName in merged && merged[keyName] == PyNone
    ensures Decide(merged, flagName, keyName) == Bypass
  {
  }

  /** On the arguments of a real call: a flag parameter that the caller
      leaves out keeps its declared default, and a falsy default (or a falsy
      positional at the flag's index) turns caching off. */
  lemma FlagFromSignature(params: seq<Param>, args: seq<Value>, kwargs: map<string, Value>,
                          flagName: string, keyName: string, i: nat)
    requires i < |params| && params[i].name == flagName && flagName !in kwargs
    requires IndexOf(params, flagName) == i
    requires !Truthy(if i < |args| then args[i] else params[i].default)
    ensures Decide(NormalizeArgs(params, args, kwargs), flagName, keyName) == Bypass
  {
  }
}

=== FILE: normalize.dfy ===
/** `normalize_args` (src/funcache/_utils.py): one name-to-value map built
    from a call's positional and keyword arguments and the function's
    declared parameters. */
module Normalize {
  import opened Values

  /** Names of the parameters declared before index `i`. */
  function NamesBelow(params: seq<Param>, i: nat): set<string>
    requires i <= |params|
  {
    set j | 0 <= j < i :: params[j].name
  }

  /** Names of all declared parameters. */
  function Names(params: seq<Param>): set<string> {
    NamesBelow(params, |params|)
  }

  /** Index of the first parameter called `name`, or `|params|` if none is. */
  function IndexOf(params: seq<Param>, name: string): (j: nat)
    ensures j <= |params|
    ensures j < |params| ==> params[j].name == name
    ensures forall k | 0 <= k < j :: params[k].name != name
  {
    if |params| == 0 then 0
    else if params[0].name == name then 0
    else 1 + IndexOf(params[1..], name)
  }

  /** What a parameter not passed by keyword is bound to: the positional
      argument at the SAME index as the parameter, or else its declared
      default. Positionals are not consumed in order. */
  function Positional(params: seq<Param>, args: seq<Value>, i: nat): Value
    requires i < |params|
  {
    if i < |args| then args[i] else params[i].default
  }

  /** Declarative description of the merged map once the parameters below
      index `i` have been visited: every keyword as given, and every other
      visited name bound through the first parameter of that name. */
  function MergedBelow(params: seq<Param>, args: seq<Value>, kwargs: map<string, Value>, i: nat): map<string, Value>
    requires i <= |params|
  {
    map k | k in kwargs.Keys + NamesBelow(params, i) ::
      if k in kwargs then kwargs[k] else Positional(params, args, IndexOf(params, k))
  }

  /** One turn of the loop of `normalize_args`: a name already present is
      skipped, any other is bound. */
  function Visit(params: seq<Param>, args: seq<Value>, merged: map<string, Value>, i: nat): map<string, Value>
    requires i < |params|
  {
    var name := params[i].name;
    if name in merged then merged else merged[name := Positional(params, args, i)]
  }

  /** The loop of `normalize_args`, from parameter index `i` on. */
  function Fill(params: seq<Param>, args: seq<Value>, merged: map<string, Value>, i: nat): map<string, Value>
    requires i <= |params|
    decreases |params| - i
  {
    if i == |params| then merged else Fill(params, args, Visit(params, args, merged, i), i + 1)
  }

  lemma NamesBelowStep(params: seq<Param>, i: nat)
    requires i < |params|
    ensures NamesBelow(params, i + 1) == NamesBelow(params, i) + {params[i].name}
  {
  }

  /** A turn of the loop that meets a name already present changes nothing. */
  lemma MergedStepPresent(params: seq<Param>, args: seq<Value>, kwargs: map<string, Value>, i: nat)
    requires i < |params|
    requires params[i].name in MergedBelow(params, args, kwargs, i)
    ensures MergedBelow(params, args, kwargs, i) == MergedBelow(params, args, kwargs, i + 1)
  {
    var m, m' := MergedBelow(params, args, kwargs, i), MergedBelow(params, args, kwargs, i + 1);
    NamesBelowStep(params, i);
    assert m'.Keys == m.Keys;
  }

  /** A turn of the loop that meets a new name binds it by its index. */
  lemma MergedStepAbsent(params: seq<Param>, args: seq<Value>, kwargs: map<string, Value>, i: nat)
    requires i < |params|
    requires params[i].name !in MergedBelow(params, args, kwargs, i)
    ensures MergedBelow(params, args, kwargs, i)[params[i].name := Positional(params, args, i)]
            == MergedBelow(params, args, kwargs, i + 1)
  {
    var m, m' := MergedBelow(params, args, kwargs, i), MergedBelow(params, args, kwargs, i + 1);
    var name := params[i].name;
    NamesBelowStep(params, i);
    assert IndexOf(params, name) == i;
    var n := m[name := Positional(params, args, i)];
    assert m'.Keys == n.Keys;
  }

  /** One turn of the loop moves the description from index `i` to `i + 1`. */
  lemma MergedStep(params: seq<Param>, args: seq<Value>, kwargs: map<string, Value>, i: nat)
    requires i < |params|
    ensures Visit(params, args, MergedBelow(params, args, kwargs, i), i) == MergedBelow(params, args, kwargs, i + 1)
  {
    if params[i].name in MergedBelow(params, args, kwargs, i) {
      MergedStepPresent(params, args, kwargs, i);
    } else {
      MergedStepAbsent(params, args, kwargs, i);
    }
  }

  /** The loop keeps the declarative description as its invariant. */
  lemma {:induction false} FillKeepsDescription(params: seq<Param>, args: seq<Value>, kwargs: map<string, Value>, i: nat)
    requires i <= |params|
    ensures Fill(params, args, MergedBelow(params, args, kwargs, i), i) == MergedBelow(params, args, kwargs, |params|)
    decreases |params| - i
  {
    if i < |params| {
      MergedStep(params, args, kwargs, i);
      FillKeepsDescription(params, args, kwargs, i + 1);
    }
  }

  /** `normalize_args(func, args, kwargs)` where `params` is the declared
      parameter list of `func`. */
  function NormalizeArgs(params: seq<Param>, args: seq<Value>, kwargs: map<string, Value>): (merged: map<string, Value>)
    ensures merged.Keys == kwargs.Keys + Names(params)
    ensures forall i | 0 <= i < |params| :: params[i].name in merged
    ensures forall k | k in kwargs :: k in merged && merged[k] == kwargs[k]
    ensures forall i | 0 <= i < |params| && params[i].name !in kwargs && IndexOf(params, params[i].name) == i ::
              params[i].name in merged && merged[params[i].name] == (if i < |args| then args[i] else params[i].default)
  {
    assert MergedBelow(params, args, kwargs, 0) == kwargs;
    FillKeepsDescription(params, args, kwargs, 0);
    Fill(params, args, kwargs, 0)
  }

  /** A keyword map that already names every parameter comes back unchanged,
      whatever positionals accompany it. */
  lemma CompleteKeywordsAreFixpoint(params: seq<Param>, args: seq<Value>, m: map<string, Value>)
    requires Names(params) <= m.Keys
    ensures NormalizeArgs(params, args, m) == m
  {
    var r := NormalizeArgs(params, args, m);
    assert r.Keys == m.Keys;
  }

  /** Normalizing is idempotent: the merged map fed back as keywords with no
      positionals is returned as it is. */
  lemma NormalizeIdempotent(params: seq<Param>, args: seq<Value>, kwargs: map<string, Value>)
    ensures NormalizeArgs(params, [], NormalizeArgs(params, args, kwargs)) == NormalizeArgs(params, args, kwargs)
  {
    CompleteKeywordsAreFixpoint(params, [], NormalizeArgs(params, args, kwargs));
  }

  /** Only the positionals at indices of parameters not passed by keyword
      matter; all others are dropped. */
  lemma OnlyUnshadowedPositionalsMatter(params: seq<Param>, args: seq<Value>, args': seq<Value>, kwargs: map<string, Value>)
    requires forall i | 0 <= i < |params| && params[i].name !in kwargs ::
               (i < |args| <==> i < |args'|) && (i < |args| ==> args[i] == args'[i])
    ensures NormalizeArgs(params, args, kwargs) == NormalizeArgs(params, args', kwargs)
  {
    var r, r' := NormalizeArgs(params, args, kwargs), NormalizeArgs(params, args', kwargs);
    forall k | k in r
      ensures r[k] == r'[k]
    {
      if k !in kwargs {
        var i := IndexOf(params, k);
      }
    }
  }

  /** Positionals beyond the declared parameters are dropped. */
  lemma ExtraPositionalsDropped(params: seq<Param>, args: seq<Value>, kwargs: map<string, Value>)
    requires |params| <= |args|
    ensures NormalizeArgs(params, args, kwargs) == NormalizeArgs(params, args[..|params|], kwargs)
  {
    OnlyUnshadowedPositionalsMatter(params, args, args[..|params|], kwargs);
  }

  /** A positional at the index of a parameter that was also passed by
      keyword is dropped: replacing it changes nothing. */
  lemma ShadowedPositionalDropped(params: seq<Param>, args: seq<Value>, kwargs: map<string, Value>, i: nat, v: Value)
    requires i < |args| && i < |params| && params[i].name in kwargs
    ensures NormalizeArgs(params, args[i := v], kwargs) == NormalizeArgs(params, args, kwargs)
  {
    OnlyUnshadowedPositionalsMatter(params, args[i := v], args, kwargs);
  }

  /** For `def f(a, b)` called as `f(1, a=9)`, `b` is not bound to the
      unconsumed positional 1: it takes `args[1]`, which does not exist, and
      so gets the empty default. */
  lemma PositionalsBindByIndex()
    ensures var params := [Param("a", ParamEmpty), Param("b", ParamEmpty)];
            NormalizeArgs(params, [PyInt(1)], map["a" := PyInt(9)]) == map["a" := PyInt(9), "b" := ParamEmpty]
  {
    var params := [Param("a", ParamEmpty), Param("b", ParamEmpty)];
    var r := NormalizeArgs(params, [PyInt(1)], map["a" := PyInt(9)]);
    assert IndexOf(params, "b") == 1;
    assert Names(params) == {"a", "b"} by {
      assert params[0].name == "a" && params[1].name == "b";
    }
    assert r["b"] == ParamEmpty;
  }
}

=== FILE: paths.dfy ===
/** File names: the hex digest that `hashlib.md5(...).hexdigest()` yields,
    and POSIX `os.path.join` of a directory and a relative name. */
module Paths {

  const HexDigits := "0123456789abcdef"

  /** The 32 lower-case hex characters of an MD5 digest. */
  type HexDigest = s: string | |s| == 32 && forall k | 0 <= k < |s| :: s[k] in HexDigits
    witness "00000000000000000000000000000000"

  /** `md5(text.encode()).hexdigest()`; the hash itself is left opaque. */
  type Digest = string -> HexDigest

  /** `os.path.join(dir, name)` on POSIX: an absolute `name` replaces `dir`,
      otherwise a separator is inserted unless `dir` is empty or already
      ends in one. */
  function Join(dir: string, name: string): (p: string)
    ensures |name| <= |p| && p[|p| - |name|..] == name
  {
    if |name| > 0 && name[0] == '/' then name
    else if dir == [] || dir[|dir| - 1] == '/' then dir + name
    else dir + "/" + name
  }

  /** A name that starts with a hex digit is relative, so joining it onto a
      directory that does not end in a separator inserts exactly one. */
  lemma JoinDigestName(dir: string, h: HexDigest, rest: string)
    requires dir != [] && dir[|dir| - 1] != '/'
    ensures Join(dir, h + rest) == dir + "/" + h + rest
  {
    assert (h + rest)[0] == h[0] && h[0] in HexDigits;
  }
}

=== FILE: pickle_cache.dfy ===
/** `PickleCache` (src/funcache/core.py): memoises a function's results in
    one pickle file per key, named by the MD5 digest of the key's `str()`. */
module PickleCache {
  import opened Values
  import opened Paths
  import opened Normalize
  import opened Gate

  const DefaultDir := ".cache"

  /** A decorator's settings: the key parameter's name, the directory of the
      cache files, and the flag parameter's name (`printf` only affects
      logging). */
  datatype Config = Config(cacheKey: string, cacheDir: string, isCache: string)

  /** `pkl_cache(cache_key)` with the default directory and flag name. */
  function WithDefaults(cacheKey: string): Config {
    Config(cacheKey, DefaultDir, DefaultFlag)
  }

  /** An exception `pickle.load` can raise that `_load_cache` does not
      catch: anything but `FileNotFoundError` (and `PickleError`, which is
      not among the modelled exceptions). */
  type LoadExc = e: Exc | !e.FileNotFoundError? witness EOFError

  /** What a cache file holds: a pickled value; bytes whose unpickling
      raises an exception `_load_cache` catches (a `PickleError`, or a
      `FileNotFoundError` from code the unpickling runs); or bytes on which
      `pickle.load` raises some other exception `exc` (`EOFError` for an
      empty file, `ValueError` for an unsupported protocol, ...). */
  datatype Content = Pickled(value: Value) | Garbled | Unreadable(exc: LoadExc)

  /** The file system, as far as the cache sees it: path to content. */
  type Files = map<string, Content>

  /** `_get_cache_file(key)`: `<cache_dir>/<md5(str(key))>.pkl`. */
  function CacheFile(c: Config, md5: Digest, key: Value): (path: string)
    ensures c.cacheDir != [] && c.cacheDir[|c.cacheDir| - 1] != '/' ==>
              path == c.cacheDir + "/" + md5(Str(key)) + ".pkl"
    ensures c.cacheDir == [] || c.cacheDir[|c.cacheDir| - 1] == '/' ==>
              path == c.cacheDir + md5(Str(key)) + ".pkl"
  {
    var name := md5(Str(key)) + ".pkl";
    assert name[0] == md5(Str(key))[0] && name[0] in HexDigits;
    Join(c.cacheDir, name)
  }

  /** `pkl_cache(cache_key)` keeps one file per key under `.cache`, and its
      flag parameter is `cache`. */
  lemma DefaultFileLocation(cacheKey: string, md5: Digest, key: Value)
    ensures CacheFile(WithDefaults(cacheKey), md5, key) == ".cache/" + md5(Str(key)) + ".pkl"
    ensures WithDefaults(cacheKey).isCache == "cache"
  {
  }

  /** The file name depends on the key only through its `str()` form. */
  lemma SameStrSameFile(c: Config, md5: Digest, k1: Value, k2: Value)
    requires Str(k1) == Str(k2)
    ensures CacheFile(c, md5, k1) == CacheFile(c, md5, k2)
  {
  }

  /** `_load_cache(path)`: a missing file or one `pickle.load` rejects with a
      `PickleError` reads as `None`; any other exception of `pickle.load`
      escapes the `except` clause and reaches the caller. */
  function Load(files: Files, path: string): (r: Outcome)
    ensures r.Raise? <==> path in files && files[path].Unreadable?
    ensures r.Raise? ==> r.exc == files[path].exc
    ensures r.Raise? ==> !r.exc.FileNotFoundError?
    ensures path !in files || files[path] == Garbled ==> r == Return(PyNone)
    ensures path in files && files[path].Pickled? ==> r == Return(files[path].value)
  {
    if path !in files then Return(PyNone)
    else
      match files[path]
      case Pickled(v) => Return(v)
      case Garbled => Return(PyNone)
      case Unreadable(e) => Raise(e)
  }

  /** `_save_cache(path, v)` followed by `_load_cache(path)` returns `v`. */
  lemma SaveThenLoad(files: Files, path: string, v: Value)
    ensures Load(files[path := Pickled(v)], path) == Return(v)
  {
  }

  /** The gate's decision for one call of the wrapper. */
  function GateOf(c: Config, f: Function, args: seq<Value>, kwargs: map<string, Value>): Decision {
    Decide(NormalizeArgs(f.params, args, kwargs), c.isCache, c.cacheKey)
  }

  /** The file holds a value the wrapper returns without calling `func`. */
  predicate Hit(files: Files, path: string) {
    path in files && files[path].Pickled? && files[path].value != PyNone
  }

  /** The file reads as `None`: absent, rejected by `pickle`, or a pickled `None`. */
  predicate Miss(files: Files, path: string) {
    path !in files || files[path] == Garbled || files[path] == Pickled(PyNone)
  }

  /** One call of the wrapper that `PickleCache(...)(func)` returns. Saving
      runs `ensure_gitignore(cache_dir)` before it opens the file, and with an
      empty `cache_dir` that raises `FileNotFoundError` from `os.makedirs("")`
      after the function has run, so nothing is written. */
  function Call(c: Config, md5: Digest, f: Function, files: Files, args: seq<Value>, kwargs: map<string, Value>): (s: Step<Files>)
    ensures !s.invoked || s.out.Raise? ==> s.state == files
    ensures GateOf(c, f, args, kwargs).Bypass? ==>
              s == Step(files, f.body(NormalizeArgs(f.params, args, kwargs)), true)
    ensures var d := GateOf(c, f, args, kwargs);
            d.Lookup? && Hit(files, CacheFile(c, md5, d.key)) ==>
              s == Step(files, Return(files[CacheFile(c, md5, d.key)].value), false)
    ensures var d := GateOf(c, f, args, kwargs);
            d.Lookup? && CacheFile(c, md5, d.key) in files && files[CacheFile(c, md5, d.key)].Unreadable? ==>
              s == Step(files, Raise(files[CacheFile(c, md5, d.key)].exc), false)
    ensures var d := GateOf(c, f, args, kwargs);
            var result := f.body(NormalizeArgs(f.params, args, kwargs));
            d.Lookup? && Miss(files, CacheFile(c, md5, d.key)) ==>
              && s.invoked
              && (result.Raise? ==> s.out == result)
              && (result.Return? && c.cacheDir != "" ==>
                    s.out == result && s.state == files[CacheFile(c, md5, d.key) := Pickled(result.value)])
              && (result.Return? && c.cacheDir == "" ==> s.out == Raise(FileNotFoundError))
  {
    var merged := NormalizeArgs(f.params, args, kwargs);
    match Decide(merged, c.isCache, c.cacheKey)
    case Bypass => Step(files, f.body(merged), true)
    case Lookup(key) =>
      var path := CacheFile(c, md5, key);
      var loaded := Load(files, path);
      if loaded.Raise? then Step(files, loaded, false)
      else if loaded.value != PyNone then Step(files, loaded, false)
      else
        var result := f.body(merged);
        if result.Raise? then Step(files, result, true)
        else if c.cacheDir == "" then Step(files, Raise(FileNotFoundError), true)
        else Step(files[path := Pickled(result.value)], result, true)
  }

  /** Every call changes at most the file of its own key, and only to hold
      the value it returns. */
  lemma OnlyTheKeysFileChanges(c: Config, md5: Digest, f: Function, files: Files, args: seq<Value>, kwargs: map<string, Value>)
    ensures var s := Call(c, md5, f, files, args, kwargs);
            var d := GateOf(c, f, args, kwargs);
            s.state == files || (d.Lookup? && s.out.Return? && s.state == files[CacheFile(c, md5, d.key) := Pickled(s.out.value)])
  {
  }

  /** Round trip: an enabled miss whose function returns a non-`None` `v`
      writes `v` to the key's file and returns it; the next enabled call whose
      key prints the same then returns `v` without running its function, even
      if it is a different function sharing the directory. */
  lemma StoredResultIsReturned(c: Config, md5: Digest, f: Function, files: Files, args: seq<Value>, kwargs: map<string, Value>,
                               g: Function, args': seq<Value>, kwargs': map<string, Value>, k: Value, k': Value, v: Value)
    requires c.cacheDir != ""
    requires GateOf(c, f, args, kwargs) == Lookup(k) && GateOf(c, g, args', kwargs') == Lookup(k')
    requires Str(k) == Str(k')
    requires Miss(files, CacheFile(c, md5, k))
    requires f.body(NormalizeArgs(f.params, args, kwargs)) == Return(v) && v != PyNone
    ensures var s := Call(c, md5, f, files, args, kwargs);
            && s == Step(files[CacheFile(c, md5, k) := Pickled(v)], Return(v), true)
            && Call(c, md5, g, s.state, args', kwargs') == Step(s.state, Return(v), false)
  {
    var s := Call(c, md5, f, files, args, kwargs);
    SameStrSameFile(c, md5, k, k');
    assert Hit(s.state, CacheFile(c, md5, k'));
  }

  /** A file whose unpickling raises an exception `_load_cache` catches reads
      as a miss: the function runs and its result overwrites the file. */
  lemma CaughtLoadErrorRecomputes(c: Config, md5: Digest, f: Function, files: Files, args: seq<Value>, kwargs: map<string, Value>,
                                  k: Value, v: Value)
    requires c.cacheDir != ""
    requires GateOf(c, f, args, kwargs) == Lookup(k)
    requires CacheFile(c, md5, k) in files && files[CacheFile(c, md5, k)] == Garbled
    requires f.body(NormalizeArgs(f.params, args, kwargs)) == Return(v)
    ensures Call(c, md5, f, files, args, kwargs) == Step(files[CacheFile(c, md5, k) := Pickled(v)], Return(v), true)
  {
  }

  /** With an empty `cache_dir`, an enabled miss runs the function, then
      raises `FileNotFoundError` instead of returning its result, and stores
      nothing: every such call runs the function again. */
  lemma EmptyDirNeverStores(c: Config, md5: Digest, f: Function, files: Files, args: seq<Value>, kwargs: map<string, Value>,
                            k: Value, v: Value)
    requires c.cacheDir == ""
    requires GateOf(c, f, args, kwargs) == Lookup(k)
    requires Miss(files, CacheFile(c, md5, k))
    requires f.body(NormalizeArgs(f.params, args, kwargs)) == Return(v)
    ensures Call(c, md5, f, files, args, kwargs) == Step(files, Raise(FileNotFoundError), true)
  {
  }

  /** A `None` result is stored but reads back as a miss, so the function
      runs again on the next call with the same key. */
  lemma NoneResultIsRecomputed(c: Config, md5: Digest, f: Function, files: Files, args: seq<Value>, kwargs: map<string, Value>)
    requires GateOf(c, f, args, kwargs).Lookup?
    requires Call(c, md5, f, files, args, kwargs).out == Return(PyNone)
    ensures Call(c, md5, f, Call(c, md5, f, files, args, kwargs).state, args, kwargs).invoked
  {
    var p := CacheFile(c, md5, GateOf(c, f, args, kwargs).key);
    assert Miss(files, p);
    var s := Call(c, md5, f, files, args, kwargs);
    assert s.state == files[p := Pickled(PyNone)];
    assert Miss(s.state, p);
  }

  /** The arguments of one call. */
  datatype CallArgs = CallArgs(args: seq<Value>, kwargs: map<string, Value>)

  /** Calls the wrapper once per element of `calls`; returns the final files
      and how many times the function ran. */
  function Run(c: Config, md5: Digest, f: Function, files: Files, calls: seq<CallArgs>): (Files, nat)
    decreases |calls|
  {
    if |calls| == 0 then (files, 0)
    else
      var s := Call(c, md5, f, files, calls[0].args, calls[0].kwargs);
      var rest := Run(c, md5, f, s.state, calls[1..]);
      (rest.0, rest.1 + if s.invoked then 1 else 0)
  }

  /** Calls with caching switched off never touch the files and run the
      function every time. */
  lemma {:induction false} BypassedRunsAlwaysCompute(c: Config, md5: Digest, f: Function, files: Files, calls: seq<CallArgs>)
    requires forall k | 0 <= k < |calls| :: GateOf(c, f, calls[k].args, calls[k].kwargs).Bypass?
    ensures Run(c, md5, f, files, calls) == (files, |calls|)
    decreases |calls|
  {
    if |calls| > 0 {
      BypassedRunsAlwaysCompute(c, md5, f, files, calls[1..]);
    }
  }

  /** Calls that all share one cache file in a non-empty directory, with a
      function that always returns a non-`None` value, run the function at
      most once, whatever the file held at the start; not at all when it
      already held a value or made `pickle.load` raise. */
  lemma {:induction false} SharedKeyComputesAtMostOnce(c: Config, md5: Digest, f: Function, files: Files,
                                                       calls: seq<CallArgs>, path: string)
    requires c.cacheDir != ""
    requires forall k | 0 <= k < |calls| ::
               GateOf(c, f, calls[k].args, calls[k].kwargs).Lookup? &&
               CacheFile(c, md5, GateOf(c, f, calls[k].args, calls[k].kwargs).key) == path
    requires forall m :: f.body(m).Return? && f.body(m).value != PyNone
    ensures Run(c, md5, f, files, calls).1 <= 1
    ensures Hit(files, path) ==> Run(c, md5, f, files, calls).1 == 0
    ensures path in files && files[path].Unreadable? ==> Run(c, md5, f, files, calls).1 == 0
    decreases |calls|
  {
    if |calls| > 0 {
      var s := Call(c, md5, f, files, calls[0].args, calls[0].kwargs);
      if Miss(files, path) {
        assert Hit(s.state, path);
      } else {
        assert s.state == files;
      }
      SharedKeyComputesAtMostOnce(c, md5, f, s.state, calls[1..], path);
    }
  }
}

=== FILE: values.dfy ===
/** Python values as the caching decorators see them: the arguments and
    results that flow through a wrapped call, their truthiness and their
    `str()` form, and the outcome of calling a Python function. */
module Values {

  datatype Option<+T> = None | Some(value: T)

  /** The argument and result values of a wrapped call. `ParamEmpty` is
      `inspect.Parameter.empty`, the default that `inspect.signature`
      reports for a parameter declared without one. */
  datatype Value =
    | PyNone
    | PyBool(b: bool)
    | PyInt(i: int)
    | PyStr(s: string)
    | ParamEmpty

  /** Python truthiness of the modelled values; `inspect.Parameter.empty`
      is a class object and therefore truthy. */
  predicate Truthy(v: Value) {
    match v
    case PyNone => false
    case PyBool(b) => b
    case PyInt(i) => i != 0
    case PyStr(s) => s != ""
    case ParamEmpty => true
  }

  /** An exception: one raised by the wrapped function, one that
      `pickle.load` raises outside the `PickleError` family (`EOFError` on an
      empty file, `ValueError` on an unsupported protocol, `AttributeError` or
      `ModuleNotFoundError` for a class that no longer exists), or the
      `FileNotFoundError` that `os.makedirs("")` raises. */
  datatype Exc =
    | UserError(code: int)
    | EOFError
    | ValueError
    | AttributeError
    | ModuleNotFoundError
    | FileNotFoundError

  /** What a Python call does: return a value or raise. */
  datatype Outcome = Return(value: Value) | Raise(exc: Exc)

  /** One entry of `inspect.signature(func).parameters`. */
  datatype Param = Param(name: string, default: Value)

  /** A decorated Python function: the file and name the disk cache derives
      its directory from, its declared parameters in declaration order, and
      its behaviour when called with keyword arguments only, which the model
      leaves uninterpreted. */
  datatype Function = Function(
    filename: string,
    name: string,
    params: seq<Param>,
    body: map<string, Value> -> Outcome)

  /** One call of a wrapper: the store afterwards, what the caller sees,
      and whether the wrapped function ran. */
  datatype Step<S> = Step(state: S, out: Outcome, invoked: bool)

  function DigitChar(d: nat): (c: char)
    requires d < 10
    ensures '0' <= c <= '9'
  {
    ('0' as int + d) as char
  }

  /** The number a string of decimal digits spells, most significant first
      (a non-digit character counts as 0). */
  function DecimalValue(s: string): nat {
    if |s| == 0 then 0
    else
      var c := s[|s| - 1];
      DecimalValue(s[..|s| - 1]) * 10 + (if '0' <= c <= '9' then c as int - '0' as int else 0)
  }

  /** Decimal digits of `n`, most significant first, without leading zeros. */
  function NatToDecimal(n: nat): (s: string)
    ensures DecimalValue(s) == n
    ensures |s| >= 1
    ensures |s| == 1 <==> n < 10
    ensures forall k | 0 <= k < |s| :: '0' <= s[k] <= '9'
    ensures s[0] == '0' ==> n == 0
    decreases n
  {
    if n < 10 then [DigitChar(n)]
    else
      var prefix := NatToDecimal(n / 10);
      var s := prefix + [DigitChar(n % 10)];
      assert s[..|s| - 1] == prefix;
      s
  }

  /** `str(n)` for a Python `int`. */
  function IntToDecimal(i: int): string {
    if i < 0 then "-" + NatToDecimal(-i) else NatToDecimal(i)
  }

  /** `str(v)`, the text the pickle cache hashes into a file name. */
  function Str(v: Value): string {
    match v
    case PyNone => "None"
    case PyBool(b) => if b then "True" else "False"
    case PyInt(i) => IntToDecimal(i)
    case PyStr(s) => s
    case ParamEmpty => "<class 'inspect._empty'>"
  }

  /** Distinct natural numbers have distinct decimal forms. */
  lemma {:induction false} NatToDecimalInjective(a: nat, b: nat)
    ensures NatToDecimal(a) == NatToDecimal(b) ==> a == b
    decreases a
  {
    var s, t := NatToDecimal(a), NatToDecimal(b);
    if s == t {
      if a < 10 {
        assert s[0] == DigitChar(a) && t[0] == DigitChar(b);
      } else {
        var p, q := NatToDecimal(a / 10), NatToDecimal(b / 10);
        assert s == p + [DigitChar(a % 10)] && t == q + [DigitChar(b % 10)];
        assert s[|s| - 1] == DigitChar(a % 10) && t[|t| - 1] == DigitChar(b % 10);
        assert p == s[..|s| - 1] && q == t[..|t| - 1];
        NatToDecimalInjective(a / 10, b / 10);
      }
    }
  }

  /** Distinct integer keys have distinct `str()` forms, so they never share
      a pickle cache file name before hashing. */
  lemma StrInjectiveOnInts(a: int, b: int)
    ensures Str(PyInt(a)) == Str(PyInt(b)) ==> a == b
  {
    if Str(PyInt(a)) == Str(PyInt(b)) {
      if a < 0 && b < 0 {
        assert NatToDecimal(-a) == Str(PyInt(a))[1..] && NatToDecimal(-b) == Str(PyInt(b))[1..];
        NatToDecimalInjective(-a, -b);
      } else if a >= 0 && b >= 0 {
        NatToDecimalInjective(a, b);
      }
    }
  }

  /** Values of different types can still share a `str()` form: the integer
      1 and the string "1" both print as "1". */
  lemma IntAndStringShareStr()
    ensures PyInt(1) != PyStr("1") && Str(PyInt(1)) == Str(PyStr("1"))
  {
    assert NatToDecimal(1) == [DigitChar(1)];
  }
}
